=== FILE: README.md ===
# rusty_bot chat core, modelled in Dafny

rusty_bot is a browser chat front-end for a locally hosted language model.
It can optionally add retrieval context from an embedded document store.
This project models the application's own logic. That logic is the
conversation state machine behind the chat view, and the server functions
and database rules it relies on. The project then proves properties of
that model.

- `results.dfy` (`Results`): `Option`, `Result<T, String>` and
  `Result<(), String>` (`Outcome`). It also has the two ways a client walks
  a stream of `Result` items: skip the errors, or stop at the first one.
- `text.dfy` (`Text`): the Rust string rules the code depends on. These are
  `char::is_whitespace`, `str::trim`, the first item of `str::lines`,
  concatenation and `join`.
- `chat.dfy` (`Chat`): `ChatRole`, `ChatMessage`, and the two edits that
  streaming makes to the newest message. One appends a chunk; the other
  overwrites the content.
- `message.dfy` (`MessageView`): how one message is shown. It covers the
  placeholder test, the loading animation versus the content, and the role
  styling.
- `database.dfy` (`Database`): the document store's rules.
  - A record's title comes from the first line of the text.
  - Documents are inserted in order, and the first failure aborts the rest.
  - The connection step sets each once-only cell once.
  - Errors are returned while the table is missing.
  - A query returns at most one result.
- `server_functions.dfy` (`ServerFunctions`): the error prefixes of the
  wrapper server functions, and the shape of the token stream
  `get_response` forwards. It also has the context text `search_context`
  builds.
- `conversation.dfy` (`Conversation`): the mounted `Conversation`
  component. It has one pure function per handler and the predicates of
  the input area. An `Event` type and `Step` function let arbitrary
  interleavings of handler results be stated as event sequences.
- `hero.dfy` (`Hero`): the older `Hero` component and its own server
  functions. `src/main.rs:45` mounts only `Conversation`. `Hero` is kept
  apart because its rules differ:
  - it checks the input for emptiness without trimming it;
  - it stops streaming at the first error item;
  - it replaces the reply with the error text;
  - it keeps a message counter meant to reset the session.
- `variants.dfy` (`Variants`): the two components side by side on the same
  input.

Two details of the code that the model follows:

- Title from the first line: `str::lines` treats "\r\n" as a line ending.
  A lone '\r' at the very end of the text stays part of the title. "" has
  no lines, so its title is "Unknown". "\n" has one empty line, so its
  title is "".
- Hero's counter: `message_counter.add(1)` computes a sum and throws it
  away. Nothing else increments the counter, so the session reset that a
  count of five should trigger is never requested
  (`Hero.CounterStaysZero`).

## Model

| member | source | states |
|---|---|---|
| `Results.Successes` | src/components/conversation.rs:238-256 | The values of the `Ok` items of a stream, skipping error items; never longer than the stream, and as long as it when no item fails |
| `Results.SuccessesAppend` | src/components/conversation.rs:238-256 | Reading two stream parts one after the other yields the text items of the first part, then those of the second |
| `Results.LeadingSuccesses` | src/components/hero.rs:107 | `while let Some(Ok(x))`: the values read are exactly the leading `Ok` items, and the item after them, if any, is an error |
| `Text.Trim` | src/components/conversation.rs:187 | `str::trim`: the result is no longer than the input and is empty or neither begins nor ends with whitespace |
| `Text.IsWhitespace` | src/components/conversation.rs:187 | `char::is_whitespace`: exactly the characters with the Unicode White_Space property (tab to carriage return, space, U+0085, U+00A0, U+1680, U+2000 to U+200A, U+2028, U+2029, U+202F, U+205F, U+3000) |
| `Text.IsBlank` | src/components/conversation.rs:175 | `trim().is_empty()`: trimming leaves nothing |
| `Text.TrimIsSlice` | src/components/conversation.rs:187 | The trimmed text is a contiguous slice of the input, preceded and followed only by whitespace |
| `Text.BlankIffAllWhitespace` | src/components/conversation.rs:175 | `trim().is_empty()` holds exactly when every character is whitespace |
| `Text.TrimIdempotent` | src/components/conversation.rs:187 | Trimming an already trimmed message changes nothing |
| `Text.FirstLine` | src/server/database_impl.rs:82 | `lines().next()`: none exactly for the empty text; otherwise a '\n'-free prefix ending at end of text, at '\n', or before "\r\n" |
| `Text.FirstLineUnique` | src/server/database_impl.rs:82 | Any prefix meeting the first-line conditions is the first line, so the characterisation determines the result |
| `Text.ConcatAppend` | src/components/conversation.rs:248-252 | The text of two chunk lists read in turn is the text of the first followed by that of the second |
| `Text.JoinAppend` | src/server_functions/server_functions.rs:142 | `join` of two non-empty lists puts exactly one separator between their joins |
| `Text.Join` | src/server_functions/server_functions.rs:142 | `join`: nothing for no strings, the string itself for one, and otherwise the strings with the separator between neighbours |
| `Chat.AppendToLast` | src/components/conversation.rs:249-252 | Appending a chunk keeps the log's length, every role and every earlier entry, and extends only the newest content; an empty log stays empty |
| `Chat.ReplaceLast` | src/components/hero.rs:119-121 | Overwriting the newest content keeps the length, the roles and every earlier entry |
| `Chat.AppendToLastTwice` | src/components/conversation.rs:238-256 | Appending two chunks in turn is appending their concatenation |
| `Chat.AppendToLastEmpty` | src/components/conversation.rs:249-252 | The empty first stream item leaves the log unchanged |
| `Chat.AppendToLastOfPushed` | src/components/conversation.rs:196-199 | Appending to a log whose newest entry was just pushed extends that entry only |
| `MessageView.BodyOf` | src/components/message.rs:92-113 | The loading animation is shown exactly for a placeholder; otherwise the message's own content is rendered |
| `MessageView.IsPlaceholder` | src/components/message.rs:17-20 | A message is a placeholder exactly when its role is Assistant and its content is empty |
| `MessageView.RoleClass` | src/components/message.rs:80-84 | Assistant styling exactly for the assistant role, user styling exactly for any other role |
| `MessageView.Classes` | src/components/message.rs:76-89 | The base class then the role class; the placeholder class is present exactly for a placeholder |
| `MessageView.UserMessageNeverPlaceholder` | src/components/message.rs:17-20 | A user message, even an empty one, is never a placeholder and shows its content |
| `Database.Title` | src/server/database_impl.rs:82 | "Unknown" for the empty text; otherwise the first line of the text |
| `Database.ToRecord` | src/server/database_impl.rs:81-84 | A document's record has the whole text as body and, as title, the first line of the text, or "Unknown" for an empty text |
| `Database.FirstFailure` | src/server/database_impl.rs:86-91 | The position of the first failed insert, or the number of inserts when none fails: every earlier insert passed, and the insert at that position failed |
| `Database.ToRecords` | src/server/database_impl.rs:79-85 | One record per document, in order, whose title is the first line and whose body is the full text |
| `Database.InsertAll` | src/server/database_impl.rs:86-91 | Inserts documents in order up to the first failed insert; the table gains exactly those records, and the result is that insert's error or success when none failed |
| `Database.AddDocuments` | src/server/database_impl.rs:68-94 | Without a table: "Document table not initialized" and no change; otherwise the old rows stay a prefix, and success, exactly when every insert succeeds, appends all records |
| `Database.Connect` | src/server/database_impl.rs:12-66 | The first failing foreign step ends the call unchanged with its error; a cell set before fails the call; success leaves both cells set and the table holding exactly the folder's records |
| `Database.ConnectOnlyOnce` | src/server/database_impl.rs:43-48 | After a successful connection, another attempt fails with "Failed to set database connection" and leaves both once-only cells as they were |
| `Database.Query` | src/server/database_impl.rs:97-119 | Errors for a missing table, a failed embedding or a failed search, in that order; otherwise success with no record when the search found none, or with exactly the record the search found, taken unchanged from the table |
| `Database.ValidHit` | src/server/database_impl.rs:108-110 | The search answers with no record or with the position of one stored record (`with_results(1)`) |
| `Database.NewlineOnlyDocumentHasEmptyTitle` | src/server/database_impl.rs:82 | A document whose text is "\n" is stored under the empty title |
| `Database.CrLfIsNotPartOfTitle` | src/server/database_impl.rs:82 | For any first line without '\n', a "\r\n" line ending is not part of the title, and a '\r' that ends the line itself stays in it |
| `Database.LoneCrStaysInTitle` | src/server/database_impl.rs:82 | The text "ab\r\r\nc" is stored under the title "ab\r": only the '\r' directly before '\n' is dropped |
| `ServerFunctions.Prefixed` | src/server_functions/server_functions.rs:19-21 | `map_err` with a format prefix: success stays success, and an error becomes exactly the prefix followed by the original text |
| `ServerFunctions.InitLlmModel` | src/server_functions/server_functions.rs:17-22 | A loader error is reported as "Error initializing model: " followed by it |
| `ServerFunctions.InitEmbeddingModel` | src/server_functions/server_functions.rs:32-37 | A loader error is reported as "Error initializing embedding model: " followed by it |
| `ServerFunctions.ResetChat` | src/server_functions/server_functions.rs:66-70 | A reset error is reported as "Error trying to reset chat: " followed by it |
| `ServerFunctions.Forwarded` | src/server_functions/server_functions.rs:106-111 | The forwarded tokens are a prefix of the generated ones, all accepted by the channel, ending just before the first refused token |
| `ServerFunctions.StreamOf` | src/server_functions/server_functions.rs:103-112 | The client's stream is an empty item followed by the forwarded tokens, so it carries the same text |
| `ServerFunctions.GetResponse` | src/server_functions/server_functions.rs:85-116 | "Model not initialized" exactly without a session; a panic exactly when a session exists but no stream is acquired; the forwarded stream exactly when a session exists and a stream is acquired |
| `ServerFunctions.AllAcceptedForwardsAll` | src/server_functions/server_functions.rs:103-112 | When the channel takes every token, the client receives all generated text |
| `ServerFunctions.AsItems` | src/components/conversation.rs:238-256 | A server stream read as client items has only text items, so both reading strategies yield every token |
| `ServerFunctions.SearchContext` | src/server_functions/server_functions.rs:130-144 | A query error becomes "Error querying database: " followed by it; no record gives ""; one record gives its formatted text |
| `ServerFunctions.FormatDocument` | src/server_functions/server_functions.rs:137-141 | A record's context text is "Title: ", the title, "\nBody: ", the body and a final "\n" |
| `ServerFunctions.FormatAll` | src/server_functions/server_functions.rs:136-142 | Each record is formatted, one text per record, in result order |
| `ServerFunctions.SearchContextAppend` | src/server_functions/server_functions.rs:135-142 | Records appear in result order, separated by "\n" |
| `ServerFunctions.QueryContextShape` | src/server_functions/server_functions.rs:132-142 | Since a query returns at most one record, a successful context is "" or the formatted text of a stored record; when the search finds a record, it is exactly that record's formatted text |
| `Conversation.ModelInitialized` | src/components/conversation.rs:85-106 | Clears the model-loading flag on both outcomes; a failure appends exactly one assistant entry "Error initializing model: …"; nothing else changes |
| `Conversation.DatabaseInitialized` | src/components/conversation.rs:109-131 | Clears the database-loading flag on both outcomes; a failure appends exactly one assistant entry "Error initializing database: …"; nothing else changes |
| `Conversation.InitialStateWaits` | src/components/conversation.rs:30-38 | The component starts with an empty log, an empty input, context off and both loads pending, so the input area is locked, shows "Waiting for model...", and a send changes nothing |
| `Conversation.Loading` | src/components/conversation.rs:433 | The component is loading while the model or the database is still loading |
| `Conversation.ModelErrorPrefixedTwice` | src/components/conversation.rs:94-100 | A model load failure reaches the log with the prefix twice, once from the server function and once from the component |
| `Conversation.HandleMessageSend` | src/components/conversation.rs:144-209 | Cancels while answering; changes nothing while loading or for a blank input; otherwise appends exactly the trimmed input and an empty reply, clears the input, sets answering and clears cancel, and sends the trimmed input |
| `Conversation.Prompt` | src/components/conversation.rs:216-229 | The message is kept as a prefix; the context suffix is added exactly when context is on and the search succeeded |
| `Conversation.ContextSuffix` | src/components/conversation.rs:223 | The context block appended to the prompt: "\n\n[Potentially useful context:\n", the context text, and "]" |
| `Conversation.PromptWithStoredRecord` | src/components/conversation.rs:219-224 | With context on and one record found, the prompt carries the record's title and body in the context block |
| `Conversation.ChunkStep` | src/components/conversation.rs:238-256 | An error item is skipped; a text item stops the loop exactly when cancelled; otherwise only the newest content grows by the chunk, with length and roles kept |
| `Conversation.Drain` | src/components/conversation.rs:238-256 | Read without interruption, a cancelled state is left as it is; otherwise the newest content grows by the text of all text items |
| `Conversation.Finish` | src/components/conversation.rs:263-265 | The reply is over and nothing else changes |
| `Conversation.ProcessResponse` | src/components/conversation.rs:212-268 | Answering ends in every case; a `get_response` error or a cancelled state leaves the log alone; otherwise the reply gains all streamed text |
| `Conversation.InputChanged` | src/components/conversation.rs:356-360 | The input becomes the edited text and nothing else changes |
| `Conversation.ContextToggled` | src/components/conversation.rs:401-404 | Context is on exactly when the toggle's value parses as `true`; nothing else changes |
| `Conversation.ResetFinished` | src/components/conversation.rs:496-502 | A successful reset empties the log; a failed one panics at `unwrap`, so nothing changes |
| `Conversation.TextareaDisabled` | src/components/conversation.rs:335-337 | The textarea is disabled while a reply streams, the model loads or the database loads |
| `Conversation.TextareaPlaceholder` | src/components/conversation.rs:338-344 | "Waiting for model..." while anything loads, otherwise nothing while a reply streams, otherwise "Type your message..." |
| `Conversation.ToggleDisabled` | src/components/conversation.rs:384-386 | The context toggle is disabled while the model or database loads or a reply streams |
| `Conversation.SendDisabled` | src/components/conversation.rs:436 | The send button is disabled while anything loads, and when no reply streams and the input is blank |
| `Conversation.SendLabel` | src/components/conversation.rs:442 | The send button reads "Cancel" while a reply streams and "Send" otherwise |
| `Conversation.ClickProceeds` | src/components/conversation.rs:465 | A click runs the handler while a reply streams, or when nothing loads and the input is not blank |
| `Conversation.EnterProceeds` | src/components/conversation.rs:368 | Enter (without Shift) runs the handler exactly when the input is not blank |
| `Conversation.ResetDisabled` | src/components/conversation.rs:481 | The reset button is disabled while the model loads or a reply streams |
| `Conversation.ClickProceedsIffHandlerActs` | src/components/conversation.rs:454-472 | The click guard lets the handler run exactly when the handler would change the state |
| `Conversation.EnabledSendButtonActs` | src/components/conversation.rs:430-476 | An enabled button always acts: it reads "Cancel" exactly while answering and then cancels, and otherwise sends |
| `Conversation.EnterInEnabledTextareaSends` | src/components/conversation.rs:361-376 | Enter in an enabled textarea with a non-blank input sends the trimmed input |
| `Conversation.Step` | src/components/conversation.rs:85-502 | The embedder's outcome never changes the state; a loading flag, once cleared, is never set again; the log only shrinks on a reset, which empties it |
| `Conversation.ReplyStartsOnlyOnSend` | src/components/conversation.rs:165-185 | A reply starts only through a click or Enter from a state that is not loading and has a non-blank input |
| `Conversation.StepPreservesInv` | src/components/conversation.rs:155-161 | No event breaks "answering implies loaded and not cancelled" |
| `Conversation.RunPreservesInv` | src/components/conversation.rs:155-161 | The same holds after any sequence of events |
| `Conversation.ReachableCancelIsEnabled` | src/components/conversation.rs:436-442 | In every reachable state, while a reply streams, the button reads "Cancel" and is enabled |
| `Conversation.StreamingLocksInputs` | src/components/conversation.rs:335-344 | While a reply streams in a reachable state, the textarea, toggle and reset button are disabled and the textarea shows no placeholder |
| `Conversation.CompletedTurn` | src/components/conversation.rs:144-268 | A send and an uninterrupted stream log the trimmed input and a reply made of all text items, then end the reply with an empty input |
| `Conversation.RunAppend` | src/components/conversation.rs:85-502 | Handling two sequences of events one after the other is handling their concatenation |
| `Conversation.RunChunksIsDrain` | src/components/conversation.rs:238-256 | For a reply that was not cancelled, delivering the stream's items one event at a time gives the state the uninterrupted read loop gives |
| `Conversation.SendPushesTurn` | src/components/conversation.rs:187-209 | A send from a ready state leaves the log as the old log, the trimmed input and an empty reply, with the input empty, the reply streaming and not cancelled |
| `Conversation.RunTurnEvents` | src/components/conversation.rs:238-268 | After a step that starts an uncancelled reply, one event per stream item and the end of the stream give the uninterrupted read loop followed by the reply's end |
| `Conversation.TurnThroughEvents` | src/components/conversation.rs:144-268 | A click on Send, one event per stream item and the end of the stream give exactly the response task's result, whose log is the trimmed input followed by all the streamed text |
| `Conversation.CompletedTurnFromServer` | src/server_functions/server_functions.rs:85-116 | With a session, an acquired stream and a channel that takes every token, the reply is exactly the generated text |
| `Conversation.CancelKeepsPartialReply` | src/components/conversation.rs:155-162 | Cancelling keeps the log and input, and the rest of the stream adds nothing |
| `Conversation.ReplyIsPlaceholderUntilText` | src/components/conversation.rs:195-199 | The reply a send pushes is a placeholder, and stays one exactly until non-empty text has streamed in |
| `Conversation.ClickSends` | src/components/conversation.rs:183-205 | A click from a ready state with a non-blank input produces the sending state |
| `Conversation.ClickCancels` | src/components/conversation.rs:155-162 | A click while answering sets cancel and ends answering |
| `Conversation.ChunkFillsEmptyReply` | src/components/conversation.rs:248-252 | A chunk arriving on an empty, uncancelled reply becomes its content |
| `Conversation.StaleChunkLandsInNewReply` | src/components/conversation.rs:242-252 | Cancel, then send again: a chunk still arriving from the cancelled task passes the cancel check and lands in the new reply |
| `Hero.InitModel` | src/components/hero.rs:221-228 | A loader error is reported as "Error al inicializar el modelo: " followed by it |
| `Hero.ResetSession` | src/components/hero.rs:231-237 | A reset error is reported as "Error al reiniciar sesión: " followed by it |
| `Hero.GetResponse` | src/components/hero.rs:240-296 | Never panics; without a session "Modelo no inicializado" with no attempt; a failed first acquisition resets once and retries once; reset and retry failures have their own errors; a stream is the empty item then the forwarded tokens |
| `Hero.InitDone` | src/components/hero.rs:25-44 | Clears the loading flag on both outcomes; a failure appends exactly one assistant error entry |
| `Hero.EditInput` | src/components/hero.rs:176-180 | Edits are ignored while answering or loading; otherwise only the input changes |
| `Hero.SendAllowed` | src/components/hero.rs:75 | A send goes through when no reply streams, the model is loaded and the input, untrimmed, is not empty |
| `Hero.SendDisabled` | src/components/hero.rs:195-199 | The button is disabled while a reply streams, while the model loads, or when the input is empty |
| `Hero.EnterSends` | src/components/hero.rs:182-186 | Enter (without Shift) sends when the model is loaded, no reply streams and the input is not empty |
| `Hero.SendControlsMatchGuard` | src/components/hero.rs:181-199 | The button is enabled, and Enter sends, exactly when `send_message` would send |
| `Hero.SendMessage` | src/components/hero.rs:53-95 | Requests a reset exactly at a count of five or more; sends exactly when idle, loaded and the input is not empty, appending the untrimmed input and an empty reply and clearing the input |
| `Hero.ResetDone` | src/components/hero.rs:56-72 | A successful reset zeroes the counter; a failed one appends exactly one assistant error entry |
| `Hero.LeadingThenRest` | src/components/hero.rs:107-114 | Appending the first chunk and then the rest's leading chunks is appending all leading chunks |
| `Hero.StreamChunks` | src/components/hero.rs:101-114 | The task's copy gains the text of the leading text items; the component's log is written only if at least one arrives, and then equals the copy |
| `Hero.Respond` | src/components/hero.rs:101-125 | Answering ends in every case; an error replaces the reply with "Error: " and the message; otherwise the reply gains the leading text; the counter is untouched |
| `Hero.CompletedTurn` | src/components/hero.rs:53-127 | A send and a stream log the untrimmed input and a reply made of the text before the first error item |
| `Hero.FailedTurn` | src/components/hero.rs:117-122 | A send whose `get_response` fails logs the input and "Error: " followed by the message |
| `Hero.Step` | src/components/hero.rs:25-199 | No event increments the counter; only a reset can change it, to zero |
| `Hero.CounterStaysZero` | src/components/hero.rs:54 | From a zero counter, after any events the counter is still zero, so no send requests a reset |
| `Hero.NoSessionResetFromInitial` | src/components/hero.rs:22 | From the initial state no send ever requests a session reset |
| `Variants.WhitespaceInputSentOnlyByHero` | src/components/hero.rs:75 | A whitespace-only input is sent verbatim by `Hero` but refused by `Conversation` |
| `Variants.NonBlankInputSentByBoth` | src/components/conversation.rs:187 | A non-blank input is sent by both components, trimmed only by `Conversation` |

## Left out

- Browser and DOM access are not modelled. This includes scrolling, the RSX markup, and the CSS strings beyond the predicates above. They are I/O with nothing to prove.
- Markdown-to-HTML rendering and syntax highlighting are not modelled. A message's content is what the renderer is given, and the renderer is a foreign library.
- Concurrency is not modelled directly: `spawn`, channels and signal reactivity are not present.
  - A handler whose state write has no `await` before it becomes one atomic step.
  - A response task's effects become `Step` events, with `ChunkArrived` from any task.
  - `Drain` and `StreamChunks` describe a stream read without interruption. Interleavings are stated through `Step` and `Run`; `Conversation.RunChunksIsDrain` shows the two agree when nothing interleaves.
- Model loading, sampling, `try_get_stream`, the session reset and the embedding model are not modelled. These are `src/server/llm.rs` and `src/server/embedding.rs`. Their results enter as parameters: whether a session exists, whether a stream was acquired, the tokens, and the outcome of a reset.
- `get_embedding` is left out. It wraps the embedding model and returns float vectors.
- Embeddings, chunking and nearest-neighbour search are not modelled, and neither is the result's `score`/`distance`. The search answer enters as the index of the found record.
- Opening SurrealDB, selecting the namespace and building the document table in `connect_to_database` enter only as outcomes.
- Deleting `./db` at the start of `connect_to_database` is left out. Its failure is ignored (`unwrap_or_else` only logs it), so it does not change the returned outcome. The new table is taken to start empty.
- Database.ConnectOnlyOnce: speaks only of the two once-only cells. A repeated call, which `Conversation` makes on every mount, first deletes `./db` and then builds a new store and table at the same paths (src/server/database_impl.rs:13-39), before setting the connection cell fails. The files behind the connection and table the cells still hold are deleted and recreated. Which records that held table returns afterwards is up to SurrealDB and is not modelled.
- `init_db` hands `connect_to_database`'s error to the client unchanged. It has no member of its own; `Database.Connect`'s outcome is that error.
- `ServerFnError` is modelled by its message text. The framework's own rendering of the error on the client is not modelled.
- Reading the context folder is not modelled. Its two `unwrap` calls can panic. The documents' texts enter as a parameter.
- `src/components/input.rs` is not modelled: its only handler is disabled. Neither is `src/main.rs` beyond the fact that it mounts `Conversation`.
- All `println!`/`eprintln!` logging is left out.
- `Hero`'s input placeholder texts are left out; `Conversation`'s are modelled by `Conversation.TextareaPlaceholder`.
- Hero.Respond: requires a non-empty copy of the log. `history.len() - 1` would underflow on an empty log. A task only starts after a send has added two entries, and `Hero` never empties its log.
- ServerFunctions.AsItems: takes each item the server sends as exactly one `Ok` item read by the client. The client actually reads a `TextStream` over HTTP, and nothing in the source ties its chunk boundaries to the server's tokens. A transport failure reaches the client's loop as an `Err` item: `Conversation` skips it and `Hero` stops at it. `Conversation.Drain` and `Hero.StreamChunks` hold for any sequence of client items, including `Err` items; only the end-to-end lemma below depends on the one-to-one mapping.
- Conversation.CompletedTurnFromServer: assumes the one-to-one mapping of `ServerFunctions.AsItems` and no transport failure. Under a re-chunking that keeps the text and has no `Err` items, the reply text would be the same, because the reply is the concatenation of the items; this is not proved here.

=== FILE: chat.dfy ===
/** Chat roles and messages (`ChatRole`, `ChatMessage`), and the two ways
    the streaming code edits the newest message of a conversation log. */
module Chat {

  datatype Role = Assistant | User

  datatype ChatMessage = ChatMessage(role: Role, content: string)

  /** `if let Some(last) = log.last_mut() { last.content.push_str(chunk) }`:
      extends the content of the newest message; an empty log stays empty. */
  function AppendToLast(log: seq<ChatMessage>, chunk: string): (r: seq<ChatMessage>)
    ensures |r| == |log|
    ensures forall i :: 0 <= i < |log| ==> r[i].role == log[i].role
    ensures |log| > 0 ==> r[..|log| - 1] == log[..|log| - 1]
    ensures |log| > 0 ==> r[|log| - 1].content == log[|log| - 1].content + chunk
  {
    if |log| == 0 then log
    else log[..|log| - 1] + [log[|log| - 1].(content := log[|log| - 1].content + chunk)]
  }

  /** `log[log.len() - 1].content = content`: overwrites the newest
      message's content. */
  function ReplaceLast(log: seq<ChatMessage>, content: string): (r: seq<ChatMessage>)
    requires |log| > 0
    ensures |r| == |log|
    ensures forall i :: 0 <= i < |log| ==> r[i].role == log[i].role
    ensures r[..|log| - 1] == log[..|log| - 1]
    ensures r[|log| - 1].content == content
  {
    log[..|log| - 1] + [log[|log| - 1].(content := content)]
  }

  /** Appending `a` and then `b` to the newest message is appending `a + b`. */
  lemma AppendToLastTwice(log: seq<ChatMessage>, a: string, b: string)
    ensures AppendToLast(AppendToLast(log, a), b) == AppendToLast(log, a + b)
  {
    if |log| > 0 {
      var n := |log| - 1;
      assert log[n].content + a + b == log[n].content + (a + b);
    }
  }

  /** Appending the empty string changes nothing. */
  lemma AppendToLastEmpty(log: seq<ChatMessage>)
    ensures AppendToLast(log, []) == log
  {
    if |log| > 0 {
      assert log[|log| - 1].content + [] == log[|log| - 1].content;
    }
  }

  /** Appending to the newest message of `log + [m]` extends `m` only. */
  lemma AppendToLastOfPushed(log: seq<ChatMessage>, m: ChatMessage, chunk: string)
    ensures AppendToLast(log + [m], chunk) == log + [m.(content := m.content + chunk)]
  {
  }
}

=== FILE: conversation.dfy ===
/** The mounted chat component (`Conversation`) as a state machine.

    Every handler of the component reads the whole state record, builds a
    modified copy and writes it back, so each handler is a pure transition
    `State -> State`. The asynchronous response task is a sequence of such
    steps: one step per stream item it reads, then one final step.
 */
module Conversation {
  import opened Results
  import opened Text
  import opened Chat
  import MessageView
  import ServerFunctions

  datatype State = State(
    input: string,
    log: seq<ChatMessage>,
    answering: bool,
    modelLoading: bool,
    databaseLoading: bool,
    cancel: bool,
    useContext: bool)

  /** The state the component starts in: everything is still loading. */
  const Initial := State([], [], false, true, true, false, false)

  const ModelErrorPrefix := "Error initializing model: "
  const DatabaseErrorPrefix := "Error initializing database: "

  predicate Loading(s: State) {
    s.modelLoading || s.databaseLoading
  }

  // ---------------------------------------------------------------------
  // Initialisation

  /** The model initialisation finished: the model is no longer loading,
      and a failure is reported as one assistant message. */
  function ModelInitialized(s: State, o: Outcome): (r: State)
    ensures !r.modelLoading
    ensures r.(modelLoading := s.modelLoading, log := s.log) == s
    ensures o.Pass? ==> r.log == s.log
    ensures o.Fail? ==> r.log == s.log + [ChatMessage(Assistant, ModelErrorPrefix + o.error)]
  {
    match o
    case Pass => s.(modelLoading := false)
    case Fail(e) => s.(modelLoading := false, log := s.log + [ChatMessage(Assistant, ModelErrorPrefix + e)])
  }

  /** The database initialisation finished: the database is no longer
      loading, and a failure is reported as one assistant message. */
  function DatabaseInitialized(s: State, o: Outcome): (r: State)
    ensures !r.databaseLoading
    ensures r.(databaseLoading := s.databaseLoading, log := s.log) == s
    ensures o.Pass? ==> r.log == s.log
    ensures o.Fail? ==> r.log == s.log + [ChatMessage(Assistant, DatabaseErrorPrefix + o.error)]
  {
    match o
    case Pass => s.(databaseLoading := false)
    case Fail(e) => s.(databaseLoading := false, log := s.log + [ChatMessage(Assistant, DatabaseErrorPrefix + e)])
  }

  /** A model load failure is reported with the prefix twice: once by the
      server function and once by the component. */
  lemma ModelErrorPrefixedTwice(s: State, e: string)
    ensures ModelErrorPrefix == ServerFunctions.ModelInitPrefix
    ensures ModelInitialized(s, ServerFunctions.InitLlmModel(Fail(e))).log
         == s.log + [ChatMessage(Assistant, ModelErrorPrefix + (ModelErrorPrefix + e))]
  {
  }

  // ---------------------------------------------------------------------
  // Sending

  /** The result of `handle_message_send`: the new state, and the message
      handed to a newly started response task, if one was started. */
  datatype Handled = Handled(state: State, producer: Option<string>)

  /** `handle_message_send`: while a reply is streaming it cancels it; while
      anything is loading, or when the input is blank, it does nothing;
      otherwise it logs the trimmed input and an empty assistant reply,
      clears the input and starts a response task for the trimmed input. */
  function HandleMessageSend(s: State): (h: Handled)
    // cancelling
    ensures s.answering ==> h == Handled(s.(cancel := true, answering := false), None)
    // refusing
    ensures !s.answering && (Loading(s) || IsBlank(s.input)) ==> h == Handled(s, None)
    // sending
    ensures h.producer.Some? <==> !s.answering && !Loading(s) && !IsBlank(s.input)
    ensures h.producer.Some? ==>
              && h.producer.value != []
              && !IsWhitespace(h.producer.value[0])
              && !IsWhitespace(h.producer.value[|h.producer.value| - 1])
              && h.producer.value == Trim(s.input)
    ensures h.producer.Some? ==>
              && |h.state.log| == |s.log| + 2
              && h.state.log[..|s.log|] == s.log
              && h.state.log[|s.log|] == ChatMessage(User, h.producer.value)
              && h.state.log[|s.log| + 1] == ChatMessage(Assistant, [])
              && h.state.input == []
              && h.state.answering && !h.state.cancel
              && h.state.(log := s.log, input := s.input, answering := false, cancel := s.cancel) == s
  {
    if s.answering then
      Handled(s.(cancel := true, answering := false), None)
    else if s.modelLoading || s.databaseLoading || IsBlank(s.input) then
      Handled(s, None)
    else
      var message := Trim(s.input);
      var log := s.log + [ChatMessage(User, message), ChatMessage(Assistant, [])];
      assert log[..|s.log|] == s.log;
      Handled(s.(cancel := false, answering := true, log := log, input := []), Some(message))
  }

  // ---------------------------------------------------------------------
  // The response task

  function ContextSuffix(context: string): string {
    "\n\n[Potentially useful context:\n" + context + "]"
  }

  /** The prompt the response task sends: the message, with the found
      context appended when context is on and the search succeeded. */
  function Prompt(message: string, useContext: bool, search: Result<string>): (p: string)
    ensures |message| <= |p| && p[..|message|] == message
    ensures p == message <==> !useContext || search.Err?
    ensures useContext && search.Ok? ==> p[|message|..] == ContextSuffix(search.value)
  {
    if useContext && search.Ok? then
      var p := message + ContextSuffix(search.value);
      assert p[..|message|] == message;
      p
    else message
  }

  /** With context on and the closest record found, the prompt carries that
      record's title and body. */
  lemma PromptWithStoredRecord(message: string, d: ServerFunctions.Database.Record)
    ensures Prompt(message, true, ServerFunctions.SearchContext(Ok([d])))
         == message + "\n\n[Potentially useful context:\nTitle: " + d.title + "\nBody: " + d.body + "\n]"
  {
  }

  /** Whether the response task goes on reading after a stream item. */
  datatype ChunkOutcome = Continue(state: State) | Stop(state: State)

  /** One item read by the response task: an error item is skipped; a text
      item ends the task when the current state is cancelled, and is
      otherwise appended to the newest message. */
  function ChunkStep(s: State, item: Result<string>): (o: ChunkOutcome)
    ensures o.state.(log := s.log) == s
    ensures |o.state.log| == |s.log|
    ensures forall i :: 0 <= i < |s.log| ==> o.state.log[i].role == s.log[i].role
    ensures o.Stop? <==> item.Ok? && s.cancel
    ensures o.state.log != s.log ==> item.Ok? && !s.cancel && |s.log| > 0
    ensures item.Ok? && !s.cancel && |s.log| > 0 ==>
              && o.state.log[..|s.log| - 1] == s.log[..|s.log| - 1]
              && o.state.log[|s.log| - 1].content == s.log[|s.log| - 1].content + item.value
  {
    match item
    case Err(_) => Continue(s)
    case Ok(chunk) =>
      if s.cancel then Stop(s) else Continue(s.(log := AppendToLast(s.log, chunk)))
  }

  /** The loop of the response task over the stream, with nothing else
      happening in between: the text of all `Ok` items is appended to the
      newest message, unless the state is cancelled, in which case the first
      text item ends the loop and nothing is appended. */
  function Drain(s: State, items: seq<Result<string>>): (r: State)
    ensures r.(log := s.log) == s
    ensures s.cancel ==> r == s
    ensures !s.cancel ==> r.log == AppendToLast(s.log, Concat(Successes(items)))
    decreases |items|
  {
    if |items| == 0 then
      AppendToLastEmpty(s.log);
      s
    else
      match ChunkStep(s, items[0])
      case Stop(t) => t
      case Continue(t) =>
        var r := Drain(t, items[1..]);
        if !s.cancel then
          ItemThenRest(s.log, t.log, items);
          r
        else r
  }

  /** Appending the first item's text and then the rest's is appending the
      text of all items. */
  lemma ItemThenRest(log: seq<ChatMessage>, log1: seq<ChatMessage>, items: seq<Result<string>>)
    requires |items| > 0
    requires log1 == if items[0].Ok? then AppendToLast(log, items[0].value) else log
    ensures AppendToLast(log1, Concat(Successes(items[1..]))) == AppendToLast(log, Concat(Successes(items)))
  {
    var rest := Successes(items[1..]);
    if items[0].Ok? {
      assert Successes(items) == [items[0].value] + rest;
      assert ([items[0].value] + rest)[1..] == rest;
      AppendToLastTwice(log, items[0].value, Concat(rest));
    }
  }

  /** The last step of the response task: the reply is over. */
  function Finish(s: State): (r: State)
    ensures !r.answering
    ensures r.(answering := s.answering) == s
  {
    s.(answering := false)
  }

  /** The response task after it was started: reads the whole stream when
      `get_response` succeeded and then ends the reply; a `get_response`
      error ends the reply at once. */
  function ProcessResponse(s: State, response: Result<seq<Result<string>>>): (r: State)
    ensures !r.answering
    ensures r.(log := s.log, answering := s.answering) == s
    ensures response.Err? || s.cancel ==> r.log == s.log
    ensures response.Ok? && !s.cancel ==> r.log == AppendToLast(s.log, Concat(Successes(response.value)))
  {
    match response
    case Err(_) => Finish(s)
    case Ok(items) => Finish(Drain(s, items))
  }

  // ---------------------------------------------------------------------
  // Other handlers

  /** Editing the textarea replaces the input. */
  function InputChanged(s: State, text: string): (r: State)
    ensures r.input == text && r.(input := s.input) == s
  {
    s.(input := text)
  }

  /** The context toggle: `value.parse::<bool>().unwrap_or(false)`. */
  function ContextToggled(s: State, value: string): (r: State)
    ensures r.useContext <==> value == "true"
    ensures r.(useContext := s.useContext) == s
  {
    s.(useContext := value == "true")
  }

  /** The reset task finished: on success the log is emptied; on failure the
      task panics at `unwrap` and nothing changes. */
  function ResetFinished(s: State, o: Outcome): (r: State)
    ensures o.Pass? ==> r == s.(log := [])
    ensures o.Fail? ==> r == s
  {
    if o.Pass? then s.(log := []) else s
  }

  // ---------------------------------------------------------------------
  // What the input area shows and allows

  predicate TextareaDisabled(s: State) {
    s.answering || s.modelLoading || s.databaseLoading
  }

  function TextareaPlaceholder(s: State): string {
    if Loading(s) then "Waiting for model..."
    else if s.answering then ""
    else "Type your message..."
  }

  predicate ToggleDisabled(s: State) {
    s.modelLoading || s.databaseLoading || s.answering
  }

  predicate SendDisabled(s: State) {
    Loading(s) || (!s.answering && IsBlank(s.input))
  }

  function SendLabel(s: State): string {
    if s.answering then "Cancel" else "Send"
  }

  /** Whether a click on the send button starts `handle_message_send`. */
  predicate ClickProceeds(s: State) {
    s.answering || (!Loading(s) && !IsBlank(s.input))
  }

  /** Whether Enter (without Shift) starts `handle_message_send`. */
  predicate EnterProceeds(s: State) {
    !IsBlank(s.input)
  }

  predicate ResetDisabled(s: State) {
    s.modelLoading || s.answering
  }

  /** The click guard holds exactly when the handler would change something:
      the guard lets through every cancel and every send, and nothing else. */
  lemma ClickProceedsIffHandlerActs(s: State)
    ensures ClickProceeds(s) <==> HandleMessageSend(s).state != s
  {
  }

  /** An enabled send button always acts: it cancels while the label reads
      "Cancel" and sends otherwise. */
  lemma EnabledSendButtonActs(s: State)
    requires !SendDisabled(s)
    ensures ClickProceeds(s)
    ensures SendLabel(s) == "Cancel" <==> s.answering
    ensures s.answering ==> HandleMessageSend(s).state.cancel && !HandleMessageSend(s).state.answering
    ensures !s.answering ==> HandleMessageSend(s).producer.Some?
  {
  }

  /** Enter in an enabled textarea with a non-blank input sends the input. */
  lemma EnterInEnabledTextareaSends(s: State)
    requires !TextareaDisabled(s) && EnterProceeds(s)
    ensures HandleMessageSend(s).producer == Some(Trim(s.input))
  {
  }

  // ---------------------------------------------------------------------
  // Event sequences

  /** The things that can happen to the component, one at a time. A chunk
      or the end of a stream comes from whichever response task is running;
      nothing ties it to the task of the current reply. */
  datatype Event =
    | ModelReady(modelOutcome: Outcome)
    | DatabaseReady(databaseOutcome: Outcome)
    | EmbedderReady(embedderOutcome: Outcome)
    | TextEdited(text: string)
    | ToggleChanged(value: string)
    | SendClicked
    | EnterPressed
    | ChunkArrived(item: Result<string>)
    | StreamEnded
    | ResetDone(resetOutcome: Outcome)

  function Step(s: State, e: Event): (r: State)
    ensures e.EmbedderReady? ==> r == s
    ensures r.modelLoading ==> s.modelLoading
    ensures r.databaseLoading ==> s.databaseLoading
    ensures |r.log| < |s.log| ==> e.ResetDone? && r.log == []
  {
    match e
    case ModelReady(o) => ModelInitialized(s, o)
    case DatabaseReady(o) => DatabaseInitialized(s, o)
    case EmbedderReady(_) => s
    case TextEdited(text) => InputChanged(s, text)
    case ToggleChanged(value) => ContextToggled(s, value)
    case SendClicked => if ClickProceeds(s) then HandleMessageSend(s).state else s
    case EnterPressed => if EnterProceeds(s) then HandleMessageSend(s).state else s
    case ChunkArrived(item) => ChunkStep(s, item).state
    case StreamEnded => Finish(s)
    case ResetDone(o) => ResetFinished(s, o)
  }

  /** A reply starts streaming only through a send from a ready state with
      a non-blank input. */
  lemma ReplyStartsOnlyOnSend(s: State, e: Event)
    requires !s.answering && Step(s, e).answering
    ensures e.SendClicked? || e.EnterPressed?
    ensures !Loading(s) && !IsBlank(s.input)
  {
  }

  function Run(s: State, events: seq<Event>): State
    decreases |events|
  {
    if |events| == 0 then s else Run(Step(s, events[0]), events[1..])
  }

  /** What holds in every state the component can reach: a reply streams
      only once loading is over, and a cancelled reply is not streaming. */
  ghost predicate Inv(s: State) {
    && (s.answering ==> !Loading(s))
    && !(s.answering && s.cancel)
  }

  /** The component starts with an empty log, context off, and everything
      loading: the input area is locked and waits for the model, a send
      changes nothing, and the invariant holds. */
  lemma InitialStateWaits()
    ensures Initial.log == [] && Initial.input == [] && !Initial.useContext
    ensures Loading(Initial) && Inv(Initial)
    ensures TextareaDisabled(Initial) && SendDisabled(Initial) && ToggleDisabled(Initial)
    ensures TextareaPlaceholder(Initial) == "Waiting for model..." && SendLabel(Initial) == "Send"
    ensures HandleMessageSend(Initial) == Handled(Initial, None)
  {
  }

  lemma StepPreservesInv(s: State, e: Event)
    requires Inv(s)
    ensures Inv(Step(s, e))
  {
  }

  lemma {:induction false} RunPreservesInv(s: State, events: seq<Event>)
    requires Inv(s)
    ensures Inv(Run(s, events))
    decreases |events|
  {
    if |events| > 0 {
      StepPreservesInv(s, events[0]);
      RunPreservesInv(Step(s, events[0]), events[1..]);
    }
  }

  /** In every reachable state the send button reads "Cancel" exactly while
      a reply streams, and it is then never disabled. */
  lemma ReachableCancelIsEnabled(events: seq<Event>)
    ensures var s := Run(Initial, events);
            s.answering ==> SendLabel(s) == "Cancel" && !SendDisabled(s) && !s.cancel
  {
    RunPreservesInv(Initial, events);
  }

  /** While a reply streams in a reachable state, the textarea, the context
      toggle and the reset button are disabled, and the textarea shows no
      placeholder text. */
  lemma StreamingLocksInputs(s: State)
    requires Inv(s) && s.answering
    ensures TextareaDisabled(s) && ToggleDisabled(s) && ResetDisabled(s)
    ensures TextareaPlaceholder(s) == []
  {
  }

  // ---------------------------------------------------------------------
  // Whole turns

  /** A send from a ready state pushes the trimmed input and an empty
      reply, clears the input and is not cancelled. */
  lemma SendPushesTurn(s: State)
    requires !s.answering && !Loading(s) && !IsBlank(s.input)
    ensures var h := HandleMessageSend(s).state;
            && h.log == s.log + [ChatMessage(User, Trim(s.input))] + [ChatMessage(Assistant, [])]
            && !h.cancel && h.input == [] && h.answering
  {
    var h := HandleMessageSend(s).state;
    var pushed := s.log + [ChatMessage(User, Trim(s.input))] + [ChatMessage(Assistant, [])];
    assert |h.log| == |pushed|;
    assert forall i :: 0 <= i < |pushed| ==> h.log[i] == pushed[i] by {
      forall i | 0 <= i < |pushed|
        ensures h.log[i] == pushed[i]
      {
        if i < |s.log| {
          assert h.log[i] == h.log[..|s.log|][i];
        }
      }
    }
  }

  /** From a ready, idle state with a non-blank input, sending and then
      reading a stream of items to its end, with no cancel in between,
      logs the trimmed input and a reply made of all the text items; the
      reply is over and the input is empty. */
  lemma CompletedTurn(s: State, items: seq<Result<string>>)
    requires !s.answering && !Loading(s) && !IsBlank(s.input)
    ensures var t := ProcessResponse(HandleMessageSend(s).state, Ok(items));
            && t.log == s.log + [ChatMessage(User, Trim(s.input)), ChatMessage(Assistant, Concat(Successes(items)))]
            && !t.answering
            && t.input == []
  {
    var h := HandleMessageSend(s).state;
    var prefix := s.log + [ChatMessage(User, Trim(s.input))];
    var reply := Concat(Successes(items));
    SendPushesTurn(s);
    AppendToLastOfPushed(prefix, ChatMessage(Assistant, []), reply);
    assert [] + reply == reply;
    assert ProcessResponse(h, Ok(items)).log == prefix + [ChatMessage(Assistant, reply)];
    assert prefix + [ChatMessage(Assistant, reply)]
        == s.log + [ChatMessage(User, Trim(s.input)), ChatMessage(Assistant, reply)];
  }

  /** The same turn end to end: when the server has a session, acquires a
      stream and the channel takes every token, the reply is exactly the
      generated text (the leading empty item adds nothing). */
  lemma CompletedTurnFromServer(s: State, tokens: seq<string>, accepts: seq<bool>)
    requires !s.answering && !Loading(s) && !IsBlank(s.input)
    requires |accepts| == |tokens| && forall i :: 0 <= i < |accepts| ==> accepts[i]
    ensures var r := ServerFunctions.GetResponse(true, true, tokens, accepts);
            && r.Streaming?
            && ProcessResponse(HandleMessageSend(s).state, Ok(ServerFunctions.AsItems(r.items))).log
               == s.log + [ChatMessage(User, Trim(s.input)), ChatMessage(Assistant, Concat(tokens))]
  {
    var r := ServerFunctions.GetResponse(true, true, tokens, accepts);
    ServerFunctions.AllAcceptedForwardsAll(tokens, accepts);
    CompletedTurn(s, ServerFunctions.AsItems(r.items));
  }

  /** The events a response task produces while it reads a stream: one
      `ChunkArrived` per item, in order. */
  function Chunks(items: seq<Result<string>>): (events: seq<Event>)
    ensures |events| == |items|
    ensures forall i :: 0 <= i < |items| ==> events[i] == ChunkArrived(items[i])
    decreases |items|
  {
    if |items| == 0 then [] else [ChunkArrived(items[0])] + Chunks(items[1..])
  }

  /** Running two event sequences one after the other is running their
      concatenation. */
  lemma {:induction false} RunAppend(s: State, a: seq<Event>, b: seq<Event>)
    ensures Run(s, a + b) == Run(Run(s, a), b)
    decreases |a|
  {
    if |a| == 0 {
      assert a + b == b;
    } else {
      assert (a + b)[0] == a[0];
      assert (a + b)[1..] == a[1..] + b;
      RunAppend(Step(s, a[0]), a[1..], b);
    }
  }

  /** Running a single event is taking one step. */
  lemma RunOne(s: State, e: Event)
    ensures Run(s, [e]) == Step(s, e)
  {
    var one := [e];
    assert one[1..] == [];
  }

  /** Delivering a stream's items as events to a state that is not
      cancelled does what the response task's uninterrupted loop does. */
  lemma {:induction false} RunChunksIsDrain(s: State, items: seq<Result<string>>)
    requires !s.cancel
    ensures Run(s, Chunks(items)) == Drain(s, items)
    decreases |items|
  {
    if |items| > 0 {
      var t := ChunkStep(s, items[0]);
      assert Chunks(items)[0] == ChunkArrived(items[0]);
      assert Chunks(items)[1..] == Chunks(items[1..]);
      RunChunksIsDrain(t.state, items[1..]);
    }
  }

  /** A step that starts a reply which is not cancelled, then one event per
      stream item, then the end of the stream: the response task's
      uninterrupted loop followed by its last step. */
  lemma {:induction false} RunTurnEvents(s: State, e: Event, h: State, items: seq<Result<string>>)
    requires Step(s, e) == h && !h.cancel
    ensures Run(s, [e] + Chunks(items) + [StreamEnded]) == Finish(Drain(h, items))
  {
    RunAppend(s, [e] + Chunks(items), [StreamEnded]);
    RunAppend(s, [e], Chunks(items));
    RunOne(s, e);
    RunChunksIsDrain(h, items);
    RunOne(Drain(h, items), StreamEnded);
  }

  /** The completed turn driven through `Step`: a click on Send, one event
      per stream item and the end of the stream give the state of the
      response task's own formulation, and so the log of `CompletedTurn`. */
  lemma {:induction false} TurnThroughEvents(s: State, items: seq<Result<string>>)
    requires !s.answering && !Loading(s) && !IsBlank(s.input)
    ensures Run(s, [SendClicked] + Chunks(items) + [StreamEnded])
         == ProcessResponse(HandleMessageSend(s).state, Ok(items))
    ensures Run(s, [SendClicked] + Chunks(items) + [StreamEnded]).log
         == s.log + [ChatMessage(User, Trim(s.input)), ChatMessage(Assistant, Concat(Successes(items)))]
  {
    var h := HandleMessageSend(s).state;
    assert Step(s, SendClicked) == h;
    SendPushesTurn(s);
    RunTurnEvents(s, SendClicked, h, items);
    CompletedTurn(s, items);
  }

  /** Sending while a reply streams cancels it: the log keeps what was
      streamed so far, and the task's remaining stream adds nothing. */
  lemma CancelKeepsPartialReply(s: State, rest: Result<seq<Result<string>>>)
    requires s.answering
    ensures var c := HandleMessageSend(s).state;
            && c.log == s.log && c.input == s.input && c.cancel && !c.answering
            && ProcessResponse(c, rest).log == s.log
  {
  }

  /** The reply a send pushes shows the loading animation, and keeps showing
      it exactly until the stream has delivered some non-empty text. */
  lemma ReplyIsPlaceholderUntilText(s: State, items: seq<Result<string>>)
    requires !s.answering && !Loading(s) && !IsBlank(s.input)
    ensures var h := HandleMessageSend(s).state;
            MessageView.IsPlaceholder(h.log[|h.log| - 1])
    ensures var d := Drain(HandleMessageSend(s).state, items);
            MessageView.IsPlaceholder(d.log[|d.log| - 1]) <==> Concat(Successes(items)) == []
  {
  }

  /** A click in a ready, idle state with a non-blank input sends. */
  lemma ClickSends(s: State)
    requires !s.answering && !Loading(s) && !IsBlank(s.input)
    ensures Step(s, SendClicked)
         == s.(cancel := false, answering := true, input := [],
               log := s.log + [ChatMessage(User, Trim(s.input)), ChatMessage(Assistant, [])])
  {
  }

  /** A click while a reply streams cancels it. */
  lemma ClickCancels(s: State)
    requires s.answering
    ensures Step(s, SendClicked) == s.(cancel := true, answering := false)
  {
  }

  /** A text item arriving while the newest message is an empty reply and
      nothing is cancelled becomes that reply's content. */
  lemma ChunkFillsEmptyReply(s: State, earlier: seq<ChatMessage>, chunk: string)
    requires s.log == earlier + [ChatMessage(Assistant, [])] && !s.cancel
    ensures Step(s, ChunkArrived(Ok(chunk))).log == earlier + [ChatMessage(Assistant, chunk)]
  {
    AppendToLastOfPushed(earlier, ChatMessage(Assistant, []), chunk);
    assert [] + chunk == chunk;
  }

  /** Only the current cancel flag guards a chunk. After a cancel, a new
      send clears the flag, so a text item still arriving from the cancelled
      task lands in the new reply. */
  lemma StaleChunkLandsInNewReply(s: State, first: string, second: string, stale: string)
    requires !s.answering && !Loading(s) && !IsBlank(first) && !IsBlank(second)
    ensures var s1 := Step(Step(s, TextEdited(first)), SendClicked);
            var s2 := Step(s1, SendClicked);
            var s3 := Step(Step(s2, TextEdited(second)), SendClicked);
            var s4 := Step(s3, ChunkArrived(Ok(stale)));
            && s2.cancel && !s2.answering
            && s3.answering && !s3.cancel
            && s4.log == s.log + [ChatMessage(User, Trim(first)), ChatMessage(Assistant, []),
                                  ChatMessage(User, Trim(second)), ChatMessage(Assistant, stale)]
  {
    var log1 := s.log + [ChatMessage(User, Trim(first)), ChatMessage(Assistant, [])];
    var s0 := s.(input := first);
    assert Step(s, TextEdited(first)) == s0;
    var s1 := s0.(cancel := false, answering := true, input := [], log := log1);
    ClickSends(s0);
    var s2 := s1.(cancel := true, answering := false);
    ClickCancels(s1);
    var s2e := s2.(input := second);
    assert Step(s2, TextEdited(second)) == s2e;
    var earlier := log1 + [ChatMessage(User, Trim(second))];
    var s3 := s2e.(cancel := false, answering := true, input := [],
                   log := log1 + [ChatMessage(User, Trim(second)), ChatMessage(Assistant, [])]);
    ClickSends(s2e);
    assert s3.log == earlier + [ChatMessage(Assistant, [])];
    ChunkFillsEmptyReply(s3, earlier, stale);
    Regroup(s.log, ChatMessage(User, Trim(first)), ChatMessage(Assistant, []),
            ChatMessage(User, Trim(second)), ChatMessage(Assistant, stale));
  }

  lemma Regroup<T>(a: seq<T>, x: T, y: T, z: T, w: T)
    ensures (a + [x, y]) + [z] + [w] == a + [x, y, z, w]
  {
  }
}

=== FILE: database.dfy ===
/** The document store's own rules: how a stored record's title is derived
    from a document's text, how the documents of the context folder are
    inserted, and what a context query hands back.

    The store itself (connection, embeddings, chunking, nearest-neighbour
    search) is a foreign library; its answers enter as parameters.
 */
module Database {
  import opened Results
  import opened Text

  /** A stored document: its title and its full text. */
  datatype Record = Record(title: string, body: string)

  const UnknownTitle := "Unknown"
  const TableMissing := "Document table not initialized"

  /** `body.lines().next().unwrap_or("Unknown")`. */
  function Title(body: string): (t: string)
    ensures body == [] ==> t == UnknownTitle
    ensures body != [] ==> IsFirstLine(body, t)
  {
    if FirstLine(body).Some? then FirstLine(body).value else UnknownTitle
  }

  /** `Document::from_parts(title, body)` for one document of the folder:
      the title is the first line and the body is the whole text. */
  function ToRecord(body: string): (d: Record)
    ensures d.body == body
    ensures d.title == Title(body)
  {
    Record(Title(body), body)
  }

  function ToRecords(bodies: seq<string>): (ds: seq<Record>)
    ensures |ds| == |bodies|
    ensures forall i :: 0 <= i < |bodies| ==> ds[i] == ToRecord(bodies[i])
  {
    seq(|bodies|, i requires 0 <= i < |bodies| => ToRecord(bodies[i]))
  }

  /** Converting the first k + 1 bodies is converting the first one, then
      the next k. */
  lemma RecordsOfLongerPrefix(bodies: seq<string>, k: nat)
    requires k < |bodies|
    ensures ToRecords(bodies[..k + 1]) == [ToRecord(bodies[0])] + ToRecords(bodies[1..][..k])
  {
  }

  /** Index of the first failed insert, or the number of inserts when all
      of them succeed. */
  function FirstFailure(inserts: seq<Outcome>): (k: nat)
    ensures k <= |inserts|
    ensures forall i :: 0 <= i < k ==> inserts[i].Pass?
    ensures k < |inserts| ==> inserts[k].Fail?
  {
    if |inserts| == 0 || inserts[0].Fail? then 0 else 1 + FirstFailure(inserts[1..])
  }

  /** The table after an `add_documents` call, and the call's result. */
  datatype Added = Added(table: Option<seq<Record>>, outcome: Outcome)

  /** Inserts `ToRecord(bodies[i])` for each i in order; `inserts[i]` is what
      the store answered to insert number i. The first failure stops the
      loop with that error (the `?` inside the `for`). */
  function InsertAll(rows: seq<Record>, bodies: seq<string>, inserts: seq<Outcome>): (r: Added)
    requires |inserts| == |bodies|
    ensures r.table.Some?
    ensures var k := FirstFailure(inserts);
            r.table.value == rows + ToRecords(bodies[..k])
    ensures r.outcome.Pass? <==> FirstFailure(inserts) == |inserts|
    ensures r.outcome.Fail? ==> r.outcome == inserts[FirstFailure(inserts)]
    decreases |bodies|
  {
    if |bodies| == 0 then Added(Some(rows), Pass)
    else if inserts[0].Fail? then Added(Some(rows), inserts[0])
    else
      var r := InsertAll(rows + [ToRecord(bodies[0])], bodies[1..], inserts[1..]);
      RecordsOfLongerPrefix(bodies, FirstFailure(inserts[1..]));
      r
  }

  /** `add_documents`: fails without touching the store when the table was
      never set up; otherwise inserts the folder's documents in order,
      stopping at the first failed insert. */
  function AddDocuments(table: Option<seq<Record>>, bodies: seq<string>, inserts: seq<Outcome>): (r: Added)
    requires |inserts| == |bodies|
    ensures table.None? ==> r == Added(None, Fail(TableMissing))
    ensures table.Some? ==> r.table.Some? && |table.value| <= |r.table.value|
                            && r.table.value[..|table.value|] == table.value
    ensures table.Some? ==> (r.outcome.Pass? <==> forall i :: 0 <= i < |inserts| ==> inserts[i].Pass?)
    ensures table.Some? && r.outcome.Pass? ==> r.table.value == table.value + ToRecords(bodies)
  {
    if table.None? then Added(None, Fail(TableMissing))
    else
      var r := InsertAll(table.value, bodies, inserts);
      var k := FirstFailure(inserts);
      assert (table.value + ToRecords(bodies[..k]))[..|table.value|] == table.value;
      assert k == |inserts| ==> bodies[..k] == bodies;
      r
  }

  const ConnectionAlreadySet := "Failed to set database connection"
  const TableAlreadySet := "Failed to set document table"

  /** The two once-only cells of the store: whether the connection cell has
      been set, and the document table, if its cell has been set. */
  datatype Store = Store(connected: bool, table: Option<seq<Record>>)

  /** The store after a `connect_to_database` call, and the call's result. */
  datatype Connected = Connected(store: Store, outcome: Outcome)

  /** `connect_to_database`: opening the store, selecting its namespace and
      building the document table are foreign steps whose outcomes are
      parameters; the first failure ends the call with its error. Then each
      once-only cell is set, which fails when it was set before, and the
      folder's documents are added to the new, empty table. */
  function Connect(store: Store, reached: Outcome, selected: Outcome, built: Outcome,
                   bodies: seq<string>, inserts: seq<Outcome>): (r: Connected)
    requires |inserts| == |bodies|
    ensures reached.Fail? ==> r == Connected(store, reached)
    ensures reached.Pass? && selected.Fail? ==> r == Connected(store, selected)
    ensures reached.Pass? && selected.Pass? && built.Fail? ==> r == Connected(store, built)
    ensures (store.table.Some? ==> store.connected) ==> (r.store.table.Some? ==> r.store.connected)
    ensures store.connected ==> r.store == store
    ensures store.table.Some? ==> r.store.table == store.table
    ensures r.outcome.Pass? <==>
              && reached.Pass? && selected.Pass? && built.Pass?
              && !store.connected && store.table.None?
              && forall i :: 0 <= i < |inserts| ==> inserts[i].Pass?
    ensures r.outcome.Pass? ==> r.store == Store(true, Some(ToRecords(bodies)))
  {
    if reached.Fail? then Connected(store, reached)
    else if selected.Fail? then Connected(store, selected)
    else if built.Fail? then Connected(store, built)
    else if store.connected then Connected(store, Fail(ConnectionAlreadySet))
    else if store.table.Some? then Connected(store.(connected := true), Fail(TableAlreadySet))
    else
      var added := AddDocuments(Some([]), bodies, inserts);
      assert [] + ToRecords(bodies) == ToRecords(bodies);
      Connected(Store(true, added.table), added.outcome)
  }

  /** The cells are set at most once: once a connection succeeded, every
      later attempt whose foreign steps succeed fails on the connection cell
      and leaves both cells as they were. (The files behind the held table
      are deleted and rebuilt by that attempt; that is outside the model.) */
  lemma ConnectOnlyOnce(store: Store, bodies: seq<string>, inserts: seq<Outcome>,
                        bodies2: seq<string>, inserts2: seq<Outcome>)
    requires |inserts| == |bodies| && |inserts2| == |bodies2|
    requires Connect(store, Pass, Pass, Pass, bodies, inserts).outcome.Pass?
    ensures var first := Connect(store, Pass, Pass, Pass, bodies, inserts).store;
            Connect(first, Pass, Pass, Pass, bodies2, inserts2)
            == Connected(first, Fail(ConnectionAlreadySet))
  {
  }

  /** What the nearest-neighbour search may answer: the index of the
      closest stored record (`with_results(1)` asks for at most one). */
  predicate ValidHit(table: Option<seq<Record>>, hit: Result<Option<nat>>) {
    table.Some? && hit.Ok? && hit.value.Some? ==> hit.value.value < |table.value|
  }

  /** `query`: fails when the table was never set up, passes on the error
      of embedding the query or of searching, and otherwise returns the
      found record's title and body unchanged (the score is not modelled). */
  function Query(table: Option<seq<Record>>, embedded: Outcome, hit: Result<Option<nat>>): (r: Result<seq<Record>>)
    requires ValidHit(table, hit)
    ensures table.None? ==> r == Err(TableMissing)
    ensures table.Some? && embedded.Fail? ==> r == Err(embedded.error)
    ensures table.Some? && embedded.Pass? && hit.Err? ==> r == Err(hit.error)
    ensures table.Some? && embedded.Pass? && hit.Ok? && hit.value.None? ==> r == Ok([])
    ensures table.Some? && embedded.Pass? && hit.Ok? && hit.value.Some? ==>
              r == Ok([table.value[hit.value.value]])
    ensures r.Ok? ==> |r.value| <= 1
    ensures r.Ok? ==> forall d :: d in r.value ==> d in table.value
  {
    if table.None? then Err(TableMissing)
    else if embedded.Fail? then Err(embedded.error)
    else if hit.Err? then Err(hit.error)
    else if hit.value.None? then Ok([])
    else Ok([table.value[hit.value.value]])
  }

  /** A document whose text is exactly "\n" is stored under the empty
      title, not under "Unknown". */
  lemma NewlineOnlyDocumentHasEmptyTitle()
    ensures ToRecord("\n") == Record("", "\n")
  {
  }

  /** A "\r\n" line ending is not part of the title, even when the line
      itself ends in a lone '\r' (which stays in the title). */
  lemma CrLfIsNotPartOfTitle(line: string, rest: string)
    requires '\n' !in line
    ensures Title(line + "\r\n" + rest) == line
  {
    var s := line + "\r\n" + rest;
    assert s[..|line|] == line;
    assert s[|line|] == '\r' && s[|line| + 1] == '\n';
    FirstLineUnique(s, line);
  }

  /** A lone '\r' before the "\r\n" ending stays in the title. */
  lemma LoneCrStaysInTitle()
    ensures Title("ab\r\r\nc") == "ab\r"
  {
    assert "ab\r\r\nc" == "ab\r" + "\r\n" + "c";
    CrLfIsNotPartOfTitle("ab\r", "c");
  }
}

=== FILE: hero.dfy ===
/** The older chat component (`Hero`), which the application no longer
    mounts. It differs from the conversation component: sending checks the
    raw input for emptiness (no trimming), the response task stops at the
    first error item and works on its own copy of the log, a response error
    replaces the reply's content, and a message counter is meant to reset
    the model's session every five messages.
 */
module Hero {
  import opened Results
  import opened Text
  import opened Chat
  import ServerFunctions

  datatype HeroState = HeroState(
    input: string,
    log: seq<ChatMessage>,
    answering: bool,
    modelLoading: bool,
    counter: int)

  const Initial := HeroState([], [], false, true, 0)

  /** Number of sent messages after which a send asks for a session reset. */
  const ResetThreshold := 5

  const InitErrorPrefix := "Error al inicializar el modelo: "
  const ServerResetPrefix := "Error al reiniciar sesi\U{F3}n: "
  const ClientResetPrefix := "Error al reiniciar la sesi\U{F3}n: "
  const ResponseErrorPrefix := "Error: "
  const ModelMissing := "Modelo no inicializado"
  const RetryFailed := "No se pudo obtener un stream despu\U{E9}s de reiniciar"

  // ---------------------------------------------------------------------
  // Server functions of this variant

  /** `init_model`: the loader's error, prefixed. */
  function InitModel(loaded: Outcome): (r: Outcome)
    ensures r.Pass? <==> loaded.Pass?
    ensures r.Fail? ==> r.error == InitErrorPrefix + loaded.error
  {
    ServerFunctions.Prefixed(InitErrorPrefix, loaded)
  }

  /** `reset_session`: the session reset's error, prefixed. */
  function ResetSession(reset: Outcome): (r: Outcome)
    ensures r.Pass? <==> reset.Pass?
    ensures r.Fail? ==> r.error == ServerResetPrefix + reset.error
  {
    ServerFunctions.Prefixed(ServerResetPrefix, reset)
  }

  /** The result of this variant's `get_response`, with the number of
      attempts to acquire a token stream and of session resets it made. */
  datatype Acquisition = Acquisition(response: ServerFunctions.Response, attempts: nat, resets: nat)

  /** `get_response` of this variant: fails when no chat session exists;
      when the first stream cannot be acquired it resets the session and
      tries exactly once more. `firstAcquired`, `reset` and `retryAcquired`
      are what the model layer answered. */
  function GetResponse(sessionReady: bool, firstAcquired: bool, reset: Outcome, retryAcquired: bool,
                       tokens: seq<string>, accepts: seq<bool>): (a: Acquisition)
    requires |accepts| == |tokens|
    ensures !a.response.Panicked?
    ensures a.attempts <= 2 && a.resets <= 1
    ensures !sessionReady ==> a == Acquisition(ServerFunctions.Failed(ModelMissing), 0, 0)
    ensures sessionReady ==> (a.resets == 1 <==> !firstAcquired)
    ensures sessionReady ==> (a.attempts == 2 <==> !firstAcquired && reset.Pass?)
    ensures a.response.Streaming? <==> sessionReady && (firstAcquired || (reset.Pass? && retryAcquired))
    ensures a.response.Streaming? ==> a.response.items == ServerFunctions.StreamOf(tokens, accepts)
    ensures sessionReady && !firstAcquired && reset.Fail? ==>
              a.response == ServerFunctions.Failed(ServerResetPrefix + reset.error)
    ensures sessionReady && !firstAcquired && reset.Pass? && !retryAcquired ==>
              a.response == ServerFunctions.Failed(RetryFailed)
  {
    if !sessionReady then Acquisition(ServerFunctions.Failed(ModelMissing), 0, 0)
    else if firstAcquired then Acquisition(ServerFunctions.Streaming(ServerFunctions.StreamOf(tokens, accepts)), 1, 0)
    else if reset.Fail? then Acquisition(ServerFunctions.Failed(ServerResetPrefix + reset.error), 1, 1)
    else if retryAcquired then Acquisition(ServerFunctions.Streaming(ServerFunctions.StreamOf(tokens, accepts)), 2, 1)
    else Acquisition(ServerFunctions.Failed(RetryFailed), 2, 1)
  }

  // ---------------------------------------------------------------------
  // Component handlers

  /** The model initialisation finished: loading is over either way, and a
      failure is reported as one assistant message. */
  function InitDone(s: HeroState, o: Outcome): (r: HeroState)
    ensures !r.modelLoading
    ensures r.(modelLoading := s.modelLoading, log := s.log) == s
    ensures o.Pass? ==> r.log == s.log
    ensures o.Fail? ==> r.log == s.log + [ChatMessage(Assistant, InitErrorPrefix + o.error)]
  {
    match o
    case Pass => s.(modelLoading := false)
    case Fail(e) => s.(modelLoading := false, log := s.log + [ChatMessage(Assistant, InitErrorPrefix + e)])
  }

  /** Typing is ignored while a reply streams or the model loads. */
  function EditInput(s: HeroState, text: string): (r: HeroState)
    ensures s.answering || s.modelLoading ==> r == s
    ensures !s.answering && !s.modelLoading ==> r.input == text && r.(input := s.input) == s
  {
    if !s.answering && !s.modelLoading then s.(input := text) else s
  }

  /** Whether `send_message` sends: the input is checked as typed, so an
      input of spaces only is sent. */
  predicate SendAllowed(s: HeroState) {
    !s.answering && !s.modelLoading && s.input != []
  }

  /** The send button's `disabled` attribute. */
  predicate SendDisabled(s: HeroState) {
    s.answering || s.modelLoading || s.input == []
  }

  /** Whether Enter (without Shift) calls `send_message`. */
  predicate EnterSends(s: HeroState) {
    !s.modelLoading && !s.answering && s.input != []
  }

  /** The button is enabled, and Enter sends, exactly when a send goes
      through. */
  lemma SendControlsMatchGuard(s: HeroState)
    ensures !SendDisabled(s) <==> SendAllowed(s)
    ensures EnterSends(s) <==> SendAllowed(s)
  {
  }

  /** The result of `send_message`: the new state, whether a session reset
      was requested, and the message handed to a new response task. */
  datatype Sent = Sent(state: HeroState, resetRequested: bool, producer: Option<string>)

  /** `send_message`: asks for a session reset when the counter has reached
      the threshold, and, when sending is allowed, logs the input as typed
      and an empty assistant reply, clears the input and starts a response
      task for the input. */
  function SendMessage(s: HeroState): (r: Sent)
    ensures r.resetRequested <==> s.counter >= ResetThreshold
    ensures r.producer.Some? <==> SendAllowed(s)
    ensures !SendAllowed(s) ==> r.state == s
    ensures SendAllowed(s) ==>
              && r.producer == Some(s.input)
              && |r.state.log| == |s.log| + 2
              && r.state.log[..|s.log|] == s.log
              && r.state.log[|s.log|] == ChatMessage(User, s.input)
              && r.state.log[|s.log| + 1] == ChatMessage(Assistant, [])
              && r.state.input == [] && r.state.answering
              && r.state.(log := s.log, input := s.input, answering := false) == s
  {
    var reset := s.counter >= ResetThreshold;
    if SendAllowed(s) then
      var log := s.log + [ChatMessage(User, s.input), ChatMessage(Assistant, [])];
      assert log[..|s.log|] == s.log;
      Sent(s.(answering := true, log := log, input := []), reset, Some(s.input))
    else Sent(s, reset, None)
  }

  /** The requested session reset finished: success sets the counter back
      to zero; failure is reported as one assistant message. */
  function ResetDone(s: HeroState, o: Outcome): (r: HeroState)
    ensures o.Pass? ==> r == s.(counter := 0)
    ensures o.Fail? ==> r == s.(log := s.log + [ChatMessage(Assistant, ClientResetPrefix + o.error)])
  {
    match o
    case Pass => s.(counter := 0)
    case Fail(e) => s.(log := s.log + [ChatMessage(Assistant, ClientResetPrefix + e)])
  }

  // ---------------------------------------------------------------------
  // The response task

  /** The response task's own copy of the log, and the component state after
      the task last wrote that copy back. */
  datatype Writer = Writer(state: HeroState, snapshot: seq<ChatMessage>)

  /** Reading the first item then the rest appends the text of all leading
      text items. */
  lemma LeadingThenRest(snapshot: seq<ChatMessage>, items: seq<Result<string>>)
    requires |items| > 0 && items[0].Ok?
    ensures AppendToLast(AppendToLast(snapshot, items[0].value), Concat(LeadingSuccesses(items[1..])))
         == AppendToLast(snapshot, Concat(LeadingSuccesses(items)))
  {
    var rest := LeadingSuccesses(items[1..]);
    assert LeadingSuccesses(items) == [items[0].value] + rest;
    assert ([items[0].value] + rest)[1..] == rest;
    AppendToLastTwice(snapshot, items[0].value, Concat(rest));
  }

  /** The loop `while let Some(Ok(chunk))`: each text item before the first
      error item is appended to the newest message of the task's copy, and
      the whole copy is written over the component's log. If no text item
      comes, the log is never written. */
  function StreamChunks(s: HeroState, snapshot: seq<ChatMessage>, items: seq<Result<string>>): (w: Writer)
    requires |snapshot| > 0
    ensures w.snapshot == AppendToLast(snapshot, Concat(LeadingSuccesses(items)))
    ensures w.state == if LeadingSuccesses(items) == [] then s else s.(log := w.snapshot)
    decreases |items|
  {
    if |items| == 0 || items[0].Err? then
      AppendToLastEmpty(snapshot);
      Writer(s, snapshot)
    else
      var copy := AppendToLast(snapshot, items[0].value);
      var w := StreamChunks(s.(log := copy), copy, items[1..]);
      LeadingThenRest(snapshot, items);
      if LeadingSuccesses(items[1..]) == [] then
        AppendToLastEmpty(copy);
        w
      else w
  }

  /** The response task after `get_response` answered: streams the text, or
      puts the error text in place of the reply; either way the reply is
      then over. The counter is left alone (`add(1)` computes a value that
      is thrown away). */
  function Respond(s: HeroState, snapshot: seq<ChatMessage>, response: Result<seq<Result<string>>>): (r: HeroState)
    requires |snapshot| > 0
    ensures !r.answering
    ensures r.(log := s.log, answering := s.answering) == s
    ensures response.Err? ==> r.log == ReplaceLast(snapshot, ResponseErrorPrefix + response.error)
    ensures response.Ok? && LeadingSuccesses(response.value) != [] ==>
              r.log == AppendToLast(snapshot, Concat(LeadingSuccesses(response.value)))
    ensures response.Ok? && LeadingSuccesses(response.value) == [] ==> r.log == s.log
  {
    match response
    case Ok(items) => StreamChunks(s, snapshot, items).state.(answering := false)
    case Err(e) => s.(log := ReplaceLast(snapshot, ResponseErrorPrefix + e), answering := false)
  }

  /** A send followed by a stream read to its end, with nothing else in
      between: the log gains the input as typed and a reply made of the text
      items before the first error item. */
  lemma CompletedTurn(s: HeroState, items: seq<Result<string>>)
    requires SendAllowed(s)
    ensures var sent := SendMessage(s).state;
            var r := Respond(sent, sent.log, Ok(items));
            && r.log == s.log + [ChatMessage(User, s.input), ChatMessage(Assistant, Concat(LeadingSuccesses(items)))]
            && !r.answering && r.input == [] && r.counter == s.counter
  {
    var sent := SendMessage(s).state;
    var prefix := s.log + [ChatMessage(User, s.input)];
    assert sent.log == prefix + [ChatMessage(Assistant, [])];
    var reply := Concat(LeadingSuccesses(items));
    AppendToLastOfPushed(prefix, ChatMessage(Assistant, []), reply);
    assert [] + reply == reply;
    if LeadingSuccesses(items) == [] {
      assert reply == [];
    }
    assert prefix + [ChatMessage(Assistant, reply)]
        == s.log + [ChatMessage(User, s.input), ChatMessage(Assistant, reply)];
  }

  /** A send whose `get_response` fails: the reply shows the error. */
  lemma FailedTurn(s: HeroState, e: string)
    requires SendAllowed(s)
    ensures var sent := SendMessage(s).state;
            var r := Respond(sent, sent.log, Err(e));
            && r.log == s.log + [ChatMessage(User, s.input), ChatMessage(Assistant, ResponseErrorPrefix + e)]
            && !r.answering
  {
  }

  // ---------------------------------------------------------------------
  // Event sequences

  /** The things that can happen to the component, one at a time. A response
      task writes back its whole copy of the log, so a write carries any log. */
  datatype Event =
    | ModelReady(modelOutcome: Outcome)
    | TextEdited(text: string)
    | SendPressed
    | SessionReset(resetOutcome: Outcome)
    | LogWritten(written: seq<ChatMessage>)
    | ReplyEnded

  function Step(s: HeroState, e: Event): (r: HeroState)
    ensures r.counter == s.counter || (e.SessionReset? && r.counter == 0)
  {
    match e
    case ModelReady(o) => InitDone(s, o)
    case TextEdited(text) => EditInput(s, text)
    case SendPressed => SendMessage(s).state
    case SessionReset(o) => ResetDone(s, o)
    case LogWritten(log) => s.(log := log)
    case ReplyEnded => s.(answering := false)
  }

  function Run(s: HeroState, events: seq<Event>): HeroState
    decreases |events|
  {
    if |events| == 0 then s else Run(Step(s, events[0]), events[1..])
  }

  /** Nothing ever increments the counter, so from the initial state it
      stays zero and no send ever asks for a session reset. */
  lemma {:induction false} CounterStaysZero(s: HeroState, events: seq<Event>)
    requires s.counter == 0
    ensures Run(s, events).counter == 0
    ensures !SendMessage(Run(s, events)).resetRequested
    decreases |events|
  {
    if |events| > 0 {
      CounterStaysZero(Step(s, events[0]), events[1..]);
    }
  }

  lemma NoSessionResetFromInitial(events: seq<Event>)
    ensures !SendMessage(Run(Initial, events)).resetRequested
  {
    CounterStaysZero(Initial, events);
  }
}

=== FILE: message.dfy ===
/** How one chat message is shown: the role picks the styling, and an
    empty assistant message (the reply that is still awaited) shows a
    loading animation in place of its content. Markdown rendering is a
    foreign library and is not modelled; the content is what it is given. */
module MessageView {
  import opened Chat

  /** An assistant message with no content yet. */
  predicate IsPlaceholder(m: ChatMessage) {
    m.role == Assistant && m.content == []
  }

  /** What the message's box contains. */
  datatype Body = LoadingAnimation | Markdown(source: string)

  function BodyOf(m: ChatMessage): (b: Body)
    ensures b.LoadingAnimation? <==> IsPlaceholder(m)
    ensures b.Markdown? ==> b.source == m.content
  {
    if IsPlaceholder(m) then LoadingAnimation else Markdown(m.content)
  }

  const BaseClass := "max-w-[70rem] p-4 mb-2 break-words"
  const UserClass := "self-end bg-blue-500 rounded-tl-lg rounded-tr-lg rounded-bl-lg text-white"
  const AssistantClass := "self-start max-w-full text-gray-200"
  const PlaceholderClass := "text-gray-400"

  /** Assistant styling for assistant messages, user styling otherwise. */
  function RoleClass(role: Role): (c: string)
    ensures c == AssistantClass <==> role == Assistant
    ensures c == UserClass <==> role != Assistant
  {
    if role == Assistant then AssistantClass else UserClass
  }

  /** The classes of the message's box, in order. */
  function Classes(m: ChatMessage): (cs: seq<string>)
    ensures |cs| >= 2 && cs[0] == BaseClass && cs[1] == RoleClass(m.role)
    ensures PlaceholderClass in cs <==> IsPlaceholder(m)
  {
    [BaseClass, RoleClass(m.role)] + (if IsPlaceholder(m) then [PlaceholderClass] else [])
  }

  /** A user message is never a placeholder, even when it is empty. */
  lemma UserMessageNeverPlaceholder(content: string)
    ensures !IsPlaceholder(ChatMessage(User, content))
    ensures BodyOf(ChatMessage(User, content)) == Markdown(content)
  {
  }
}

=== FILE: results.dfy ===
/** Failure-carrying values of the chat application.

    Rust's `Option<T>`, `Result<T, String>` and `Result<(), String>`
    (every error in the application is carried as its message text), and
    the two ways a client walks a stream of `Result` items.
 */
module Results {

  /** Rust's `Option<T>`: an absent value, or a present one. */
  datatype Option<T> = None | Some(value: T)

  /** A value or an error message. */
  datatype Result<+T> = Ok(value: T) | Err(error: string)

  /** `Result<(), String>`: success, or an error message. */
  datatype Outcome = Pass | Fail(error: string)

  /** The values of the `Ok` items, in order, skipping the `Err` items
      (a loop that logs an error item and goes on). */
  function Successes<T>(items: seq<Result<T>>): (vs: seq<T>)
    ensures |vs| <= |items|
    ensures (forall i :: 0 <= i < |items| ==> items[i].Ok?) ==> |vs| == |items|
  {
    if |items| == 0 then []
    else if items[0].Ok? then [items[0].value] + Successes(items[1..])
    else Successes(items[1..])
  }

  /** The values of the `Ok` items before the first `Err` item
      (`while let Some(Ok(x)) = stream.next()`). */
  function LeadingSuccesses<T>(items: seq<Result<T>>): (vs: seq<T>)
    ensures |vs| <= |items|
    ensures forall i :: 0 <= i < |vs| ==> items[i] == Ok(vs[i])
    ensures |vs| < |items| ==> items[|vs|].Err?
  {
    if |items| == 0 || items[0].Err? then []
    else [items[0].value] + LeadingSuccesses(items[1..])
  }

  /** `Successes` of a concatenation is the concatenation of `Successes`. */
  lemma {:induction false} SuccessesAppend<T>(a: seq<Result<T>>, b: seq<Result<T>>)
    ensures Successes(a + b) == Successes(a) + Successes(b)
    decreases |a|
  {
    if |a| == 0 {
      assert a + b == b;
    } else {
      assert (a + b)[1..] == a[1..] + b;
      SuccessesAppend(a[1..], b);
    }
  }
}

=== FILE: server_functions.dfy ===
/** The server functions the conversation calls: the error texts of the
    initialisation and reset wrappers, the shape of the token stream that
    `get_response` forwards, and the context text `search_context` builds
    from a query's records.

    Model loading, sampling and the channel are foreign; what they do
    enters as parameters (whether a chat session exists, whether a token
    stream could be acquired, the tokens generated, and whether the channel
    accepted each forwarded token).
 */
module ServerFunctions {
  import opened Results
  import opened Text
  import Database

  const ModelInitPrefix := "Error initializing model: "
  const EmbeddingInitPrefix := "Error initializing embedding model: "
  const ResetPrefix := "Error trying to reset chat: "
  const QueryPrefix := "Error querying database: "
  const ModelMissing := "Model not initialized"

  /** Maps an error to `prefix + error` and leaves success alone. */
  function Prefixed(prefix: string, o: Outcome): (r: Outcome)
    ensures r.Pass? <==> o.Pass?
    ensures r.Fail? ==> |r.error| == |prefix| + |o.error|
                        && r.error[..|prefix|] == prefix && r.error[|prefix|..] == o.error
  {
    match o
    case Pass => Pass
    case Fail(e) => Fail(prefix + e)
  }

  /** `init_llm_model`: the loader's error, prefixed. */
  function InitLlmModel(loaded: Outcome): (r: Outcome)
    ensures r.Pass? <==> loaded.Pass?
    ensures r.Fail? ==> r.error == ModelInitPrefix + loaded.error
  {
    Prefixed(ModelInitPrefix, loaded)
  }

  /** `init_embedding_model`: the loader's error, prefixed. */
  function InitEmbeddingModel(loaded: Outcome): (r: Outcome)
    ensures r.Pass? <==> loaded.Pass?
    ensures r.Fail? ==> r.error == EmbeddingInitPrefix + loaded.error
  {
    Prefixed(EmbeddingInitPrefix, loaded)
  }

  /** `reset_chat`: the session reset's error, prefixed. */
  function ResetChat(reset: Outcome): (r: Outcome)
    ensures r.Pass? <==> reset.Pass?
    ensures r.Fail? ==> r.error == ResetPrefix + reset.error
  {
    Prefixed(ResetPrefix, reset)
  }

  /** The tokens the forwarding task hands to the channel: it forwards
      `tokens` in order and stops at the first token the channel refuses
      (`accepts[i]` says whether token i was accepted). */
  function Forwarded(tokens: seq<string>, accepts: seq<bool>): (sent: seq<string>)
    requires |accepts| == |tokens|
    ensures |sent| <= |tokens| && sent == tokens[..|sent|]
    ensures forall i :: 0 <= i < |sent| ==> accepts[i]
    ensures |sent| < |tokens| ==> !accepts[|sent|]
  {
    if |tokens| == 0 || !accepts[0] then []
    else [tokens[0]] + Forwarded(tokens[1..], accepts[1..])
  }

  /** What a `get_response` call gives the client: an error, a panic of the
      server function, or the text items of the stream. */
  datatype Response = Failed(error: string) | Panicked | Streaming(items: seq<string>)

  /** The stream the client reads: an empty first item, then the forwarded
      tokens. */
  function StreamOf(tokens: seq<string>, accepts: seq<bool>): (items: seq<string>)
    requires |accepts| == |tokens|
    ensures |items| >= 1 && items[0] == []
    ensures items[1..] == Forwarded(tokens, accepts)
    ensures Concat(items) == Concat(Forwarded(tokens, accepts))
  {
    [[]] + Forwarded(tokens, accepts)
  }

  /** `get_response` of the mounted conversation: fails when no chat session
      exists; a stream that cannot be acquired hits `expect` and panics;
      otherwise the client gets the forwarded stream. */
  function GetResponse(sessionReady: bool, acquired: bool, tokens: seq<string>, accepts: seq<bool>): (r: Response)
    requires |accepts| == |tokens|
    ensures r == Failed(ModelMissing) <==> !sessionReady
    ensures r.Panicked? <==> sessionReady && !acquired
    ensures r.Streaming? <==> sessionReady && acquired
    ensures r.Streaming? ==> r.items == [[]] + Forwarded(tokens, accepts)
  {
    if !sessionReady then Failed(ModelMissing)
    else if !acquired then Panicked
    else Streaming(StreamOf(tokens, accepts))
  }

  /** When the channel accepts every token, the client reads all of them, so
      the streamed text is the generated text. */
  lemma AllAcceptedForwardsAll(tokens: seq<string>, accepts: seq<bool>)
    requires |accepts| == |tokens|
    requires forall i :: 0 <= i < |accepts| ==> accepts[i]
    ensures Forwarded(tokens, accepts) == tokens
    ensures Concat(StreamOf(tokens, accepts)) == Concat(tokens)
  {
  }

  /** The stream items as the client's `Result` items (the server only sends
      `Ok` items). */
  function AsItems(items: seq<string>): (r: seq<Result<string>>)
    ensures |r| == |items|
    ensures forall i :: 0 <= i < |items| ==> r[i] == Ok(items[i])
    ensures Successes(r) == items
    ensures LeadingSuccesses(r) == items
  {
    if |items| == 0 then []
    else
      var r := [Ok(items[0])] + AsItems(items[1..]);
      assert r[1..] == AsItems(items[1..]);
      r
  }

  /** "Title: <title>\nBody: <body>\n" */
  function FormatDocument(d: Database.Record): string {
    "Title: " + d.title + "\nBody: " + d.body + "\n"
  }

  function FormatAll(docs: seq<Database.Record>): (r: seq<string>)
    ensures |r| == |docs|
    ensures forall i :: 0 <= i < |docs| ==> r[i] == FormatDocument(docs[i])
  {
    seq(|docs|, i requires 0 <= i < |docs| => FormatDocument(docs[i]))
  }

  /** `search_context`: a query error becomes a prefixed error; otherwise
      each record is formatted and the texts are joined by "\n" in result
      order. */
  function SearchContext(found: Result<seq<Database.Record>>): (r: Result<string>)
    ensures r.Err? <==> found.Err?
    ensures found.Err? ==> r.error == QueryPrefix + found.error
    ensures found == Ok([]) ==> r == Ok([])
    ensures found.Ok? && |found.value| == 1 ==> r == Ok(FormatDocument(found.value[0]))
  {
    match found
    case Err(e) => Err(QueryPrefix + e)
    case Ok(docs) => Ok(Join(FormatAll(docs), "\n"))
  }

  /** Adding one more record to a non-empty result adds "\n" and that
      record's text at the end: records appear in result order. */
  lemma SearchContextAppend(docs: seq<Database.Record>, d: Database.Record)
    requires |docs| > 0
    ensures SearchContext(Ok(docs + [d]))
         == Ok(SearchContext(Ok(docs)).value + "\n" + FormatDocument(d))
  {
    assert FormatAll(docs + [d]) == FormatAll(docs) + [FormatDocument(d)];
    JoinAppend(FormatAll(docs), [FormatDocument(d)], "\n");
  }

  /** Because a query returns at most one record, the context text is
      either empty or exactly one formatted record. */
  lemma QueryContextShape(table: Option<seq<Database.Record>>, embedded: Outcome, hit: Result<Option<nat>>)
    requires Database.ValidHit(table, hit)
    ensures var r := SearchContext(Database.Query(table, embedded, hit));
            r.Ok? ==> r.value == [] || exists d :: d in table.value && r.value == FormatDocument(d)
    ensures table.Some? && embedded.Pass? && hit.Ok? && hit.value.Some? ==>
              SearchContext(Database.Query(table, embedded, hit)) == Ok(FormatDocument(table.value[hit.value.value]))
  {
  }
}

=== FILE: text.dfy ===
/** The string rules of Rust's standard library that the application
    relies on: `char::is_whitespace`, `str::trim`, the first item of
    `str::lines`, and concatenation / `join` of a list of strings.
 */
module Text {
  import opened Results

  /** `char::is_whitespace`: the characters with the Unicode White_Space
      property. */
  predicate IsWhitespace(c: char) {
    || ('\t' <= c <= '\r')
    || c == ' '
    || c == '\U{85}'
    || c == '\U{A0}'
    || c == '\U{1680}'
    || ('\U{2000}' <= c <= '\U{200A}')
    || c == '\U{2028}'
    || c == '\U{2029}'
    || c == '\U{202F}'
    || c == '\U{205F}'
    || c == '\U{3000}'
  }

  predicate AllWhitespace(s: string) {
    forall i :: 0 <= i < |s| ==> IsWhitespace(s[i])
  }

  /** The index of the first character at or after `i` that is not
      whitespace, or `|s|` when there is none. */
  function TextStart(s: string, i: nat): (k: nat)
    requires i <= |s|
    ensures i <= k <= |s|
    ensures forall j :: i <= j < k ==> IsWhitespace(s[j])
    ensures k < |s| ==> !IsWhitespace(s[k])
    decreases |s| - i
  {
    if i < |s| && IsWhitespace(s[i]) then TextStart(s, i + 1) else i
  }

  /** The end of `s[lo..j]` once its trailing whitespace is dropped. */
  function TextEnd(s: string, lo: nat, j: nat): (k: nat)
    requires lo <= j <= |s|
    ensures lo <= k <= j
    ensures forall m :: k <= m < j ==> IsWhitespace(s[m])
    ensures k > lo ==> !IsWhitespace(s[k - 1])
    decreases j
  {
    if j > lo && IsWhitespace(s[j - 1]) then TextEnd(s, lo, j - 1) else j
  }

  /** `str::trim`: `s` without its leading and trailing whitespace. */
  function Trim(s: string): (r: string)
    ensures |r| <= |s|
    ensures r == [] || (!IsWhitespace(r[0]) && !IsWhitespace(r[|r| - 1]))
  {
    var i := TextStart(s, 0);
    s[i..TextEnd(s, i, |s|)]
  }

  /** The trimmed text is the slice of `s` between a whitespace prefix and
      a whitespace suffix. */
  lemma TrimIsSlice(s: string)
    ensures var i := TextStart(s, 0);
            var j := TextEnd(s, i, |s|);
            && Trim(s) == s[i..j]
            && AllWhitespace(s[..i]) && AllWhitespace(s[j..])
  {
  }

  /** `s.trim().is_empty()`. */
  predicate IsBlank(s: string) {
    Trim(s) == []
  }

  /** A string is blank exactly when every character of it is whitespace. */
  lemma BlankIffAllWhitespace(s: string)
    ensures IsBlank(s) <==> AllWhitespace(s)
  {
  }

  /** Trimming twice is trimming once. */
  lemma TrimIdempotent(s: string)
    ensures Trim(Trim(s)) == Trim(s)
  {
  }

  /** Index of the first '\n' of `s`, or `|s|` when there is none. */
  function LineEnd(s: string): (k: nat)
    ensures k <= |s|
    ensures forall i :: 0 <= i < k ==> s[i] != '\n'
    ensures k < |s| ==> s[k] == '\n'
  {
    if |s| == 0 || s[0] == '\n' then 0 else 1 + LineEnd(s[1..])
  }

  /** `line` is the first line of the non-empty text `s` under `str::lines`:
      a prefix without '\n', followed by the end of the text, by '\n', or by
      "\r\n"; a line directly followed by '\n' does not end with '\r'
      (that '\r' belongs to the line ending). */
  ghost predicate IsFirstLine(s: string, line: string) {
    && |line| <= |s| && s[..|line|] == line
    && '\n' !in line
    && (|line| == |s|
        || s[|line|] == '\n'
        || (|line| + 1 < |s| && s[|line|] == '\r' && s[|line| + 1] == '\n'))
    && (|line| < |s| && s[|line|] == '\n' ==> line == [] || line[|line| - 1] != '\r')
  }

  /** `s.lines().next()`: nothing for the empty text, otherwise the text up
      to the first '\n', without a '\r' that directly precedes that '\n'. */
  function FirstLine(s: string): (r: Option<string>)
    ensures r.None? <==> s == []
    ensures r.Some? ==> IsFirstLine(s, r.value)
  {
    if s == [] then None
    else
      var k := LineEnd(s);
      if k < |s| && k > 0 && s[k - 1] == '\r' then Some(s[..k - 1]) else Some(s[..k])
  }

  /** The first line is determined by the text: whatever satisfies
      `IsFirstLine` is what `FirstLine` returns. */
  lemma FirstLineUnique(s: string, line: string)
    requires s != [] && IsFirstLine(s, line)
    ensures FirstLine(s) == Some(line)
  {
  }

  /** The strings of `xs` written one after the other. */
  function Concat(xs: seq<string>): (r: string)
    ensures |xs| == 1 ==> r == xs[0]
  {
    if |xs| == 0 then [] else xs[0] + Concat(xs[1..])
  }

  lemma {:induction false} ConcatAppend(a: seq<string>, b: seq<string>)
    ensures Concat(a + b) == Concat(a) + Concat(b)
    decreases |a|
  {
    if |a| == 0 {
      assert a + b == b;
    } else {
      assert (a + b)[1..] == a[1..] + b;
      ConcatAppend(a[1..], b);
    }
  }

  /** `[..].join(sep)`: the strings of `xs` with `sep` between neighbours. */
  function Join(xs: seq<string>, sep: string): (r: string)
    ensures |xs| == 0 ==> r == []
    ensures |xs| == 1 ==> r == xs[0]
  {
    if |xs| == 0 then []
    else if |xs| == 1 then xs[0]
    else xs[0] + sep + Join(xs[1..], sep)
  }

  /** Joining two non-empty lists puts one separator between the parts. */
  lemma {:induction false} JoinAppend(a: seq<string>, b: seq<string>, sep: string)
    requires |a| > 0 && |b| > 0
    ensures Join(a + b, sep) == Join(a, sep) + sep + Join(b, sep)
    decreases |a|
  {
    if |a| == 1 {
      assert (a + b)[1..] == b;
    } else {
      assert (a + b)[1..] == a[1..] + b;
      JoinAppend(a[1..], b, sep);
    }
  }
}

=== FILE: variants.dfy ===
/** How the two chat components differ when asked to send the same input
    from comparable ready states. */
module Variants {
  import opened Results
  import opened Text
  import opened Chat
  import Conversation
  import Hero

  /** A conversation state and a hero state that agree on the input and
      log, and are both ready to send. */
  predicate BothReady(c: Conversation.State, h: Hero.HeroState) {
    && c.input == h.input && c.log == h.log
    && !c.answering && !Conversation.Loading(c)
    && !h.answering && !h.modelLoading
  }

  /** An input made only of whitespace is sent by the older component but
      refused by the mounted one. */
  lemma WhitespaceInputSentOnlyByHero(c: Conversation.State, h: Hero.HeroState)
    requires BothReady(c, h)
    requires c.input != [] && AllWhitespace(c.input)
    ensures Hero.SendMessage(h).producer == Some(h.input)
    ensures Conversation.HandleMessageSend(c) == Conversation.Handled(c, None)
  {
  }

  /** For an input that is not blank both components send, but only the
      mounted one trims what it logs and sends. */
  lemma NonBlankInputSentByBoth(c: Conversation.State, h: Hero.HeroState)
    requires BothReady(c, h)
    requires !IsBlank(c.input)
    ensures Hero.SendMessage(h).producer == Some(c.input)
    ensures Conversation.HandleMessageSend(c).producer == Some(Trim(c.input))
    ensures Hero.SendMessage(h).state.log[|h.log|] == ChatMessage(User, c.input)
    ensures Conversation.HandleMessageSend(c).state.log[|c.log|] == ChatMessage(User, Trim(c.input))
  {
  }
}
